=== FILE: README.md ===
# go-fuzzy: a verified model of the fuzzy ranker

This project models `fuzzy.go` of the Go package `go.deanishe.net/fuzzy`. The package ranks a
collection of strings against a query. A key *matches* when the query occurs in it, rune by
rune and ignoring case, as a subsequence. Each key gets a score:

- a bonus for a match right after another match, after a separator (`_`, space, `.`, `-`,
  `/`) or at a lower-to-upper camel-case boundary;
- a clamped penalty for the runes before the first match;
- a penalty for every rune that is not matched, and one more when a later, at least as
  good match displaces a pending best letter (that letter then counts as unmatched).

A `Sorter` caches one `Result` per element. It sorts the elements and the cache together:
matches first, then higher scores, then the elements' own order. When the query is plain
ASCII and stripping is enabled, diacritics are removed from the keys before scanning.

There are six modules, one file each:

- `Text` (`text.dfy`): ASCII case mapping, separators, the letter-case tests, and the
  lexicographic order of Go's string `<`, proved a strict total order.
- `Subsequence` (`subsequence.dfy`): the reference definition of a match, as an embedding of
  the query into the key. It also defines the greedy query cursor the scan advances, and
  proves the two agree.
- `Scoring` (`scoring.dfy`): the weights and their defaults, `Result`, and the scan state.
  One scan step is the function `Step`. `Evaluate` is the pure result of scanning a whole
  key. The scoring lemmas live here too.
- `Ranking` (`ranking.dfy`): the string slice `StrSlice` and the class `Sorter`, whose fields
  are updated in place. `Sorter.Match` is the imperative scan loop, proved equal to
  `Evaluate`. `Sorter.Less`/`Sorter.Swap` are the comparator and the exchange. `Sorter.Sort`
  fills the cache and sorts both arrays with a selection sort driven by `Less` and `Swap`.
  The module also has the top-level `Sort`, `SortStrings` and `Match`.
- `Scenarios` (`scenarios.dfy`) and `Findings` (`findings.dfy`): the diacritic behaviour of
  the repository's string-slice example, on a one-accent stripper. Also a discrepancy in how
  `Sorter.Sort` sets the stripping flag (see Findings), shown by two verified
  methods that call `Sorter.SortAsWritten` (the flag as the source sets it) and
  `Sorter.Sort` on the same two queries.

The source keeps the scan state in local variables. `Sorter.ScanRune` keeps the same state
variables and takes the same branches in the same order, with two differences: `bestLower`
is not stored but recomputed as the lower case of `bestLetter`, and the `strChar != ""` test
in `queryRepeat` (fuzzy.go:200) is dropped because a rune is never empty. Each iteration is
proved to compute `Scoring.Step`. Scores are integers, because every default weight is an integer.

## Model

| member | source | states |
|---|---|---|
| Text.Lower | fuzzy.go:179-180 | defines `strings.ToLower` on one rune: ASCII upper-case letters map to lower case, all else unchanged |
| Text.Upper | fuzzy.go:181 | defines `strings.ToUpper` on one rune: ASCII lower-case letters map to upper case, all else unchanged |
| Text.CaseEq | fuzzy.go:183 | defines rune equality after lower-casing, the only comparison the scan makes |
| Text.IsLowerLetter | fuzzy.go:263-267 | defines the `prevLower` test: the rune is its own lower case and has a case distinction |
| Text.IsUpperLetter | fuzzy.go:236 | defines the camel-case test on the current rune: it is its own upper case and has a case distinction |
| Text.IsSeparator | fuzzy.go:268-272 | defines the separator runes `_`, space, `.`, `-`, `/` |
| Text.LexLess | fuzzy.go:321 | defines string `<`: lexicographic, a proper prefix first |
| Subsequence.IsEmbedding | fuzzy.go:40-43 | defines a placement of every query rune, in order and up to case, at strictly increasing key positions |
| Subsequence.Embeds | fuzzy.go:40-43 | defines a match: all query runes present in the key, in order |
| Subsequence.Cursor | fuzzy.go:240-243 | defines the query cursor after `n` runes: it advances exactly when the rune equals the next query rune up to case; it never exceeds the query length or `n` |
| Subsequence.Positions | fuzzy.go:240-243 | defines the positions where the cursor advanced: as many as the cursor, increasing, each an equal rune |
| Scoring.NextMatch | fuzzy.go:183-187 | defines `nextMatch`: a query rune is left and it equals the current rune up to case |
| Scoring.Rematch | fuzzy.go:188-192 | defines `rematch`: a best letter is pending and equals the current rune up to case |
| Scoring.QueryRepeat | fuzzy.go:200-204 | defines `queryRepeat`: the pending best letter equals the next query rune up to case |
| Scoring.Commits | fuzzy.go:194-211 | defines when the pending best letter is committed: `advanced` (a next match while a letter is pending) or `queryRepeat` |
| Scoring.Matches | fuzzy.go:213 | defines the match branch: `nextMatch` or `rematch` |
| Scoring.Bonus | fuzzy.go:225-238 | defines `newScore`: adjacency bonus after a match, separator bonus after a separator, camel bonus on lower-to-upper |
| Scoring.TakesLead | fuzzy.go:246-254 | defines when the current rune becomes the best letter: in the match branch with `newScore` at least the (possibly reset) best-letter score |
| Scoring.Step | fuzzy.go:171-274 | defines one iteration of the scan loop on the scan state, field by field |
| Scoring.Scan | fuzzy.go:170-275 | defines the scan state after the first `n` runes, from the initial state (cursor 0, nothing pending, as if after a separator) |
| Scoring.Finish | fuzzy.go:277-285 | defines the result after the loop: the pending best-letter score is added, and the key matches when the cursor reached the end of the query |
| Scoring.PaysLeadingPenalty | fuzzy.go:213-223 | defines when a step adds the leading-letter penalty: the match branch with the cursor at 0 (used by `Step`) |
| Scoring.PenaltyAt | fuzzy.go:213-223 | `PaysLeadingPenalty` at the scan state before rune `i` |
| Ranking.Precedes | fuzzy.go:101-118 | defines the rank order of two (result, datum) pairs: matches first, then higher score, then string order |
| Ranking.InRankOrder | fuzzy.go:101-118 | defines a cache and its data in rank order: no pair precedes one to its left |
| Ranking.StrSlice.Len | fuzzy.go:320 | defines the slice length |
| Ranking.StrSlice.Keywords | fuzzy.go:325 | defines the key of an element as the element itself |
| Ranking.Sorter.Len | fuzzy.go:98 | defines the Sorter's length as the data's |
| Ranking.Sorter.IsASCII | fuzzy.go:295 | `Unstripped` with this Sorter's stripper |
| Ranking.Sorter.Scanned | fuzzy.go:145-147 | defines the string the scan reads: stripped when the current decision says so, the key itself otherwise |
| Ranking.Unstripped | fuzzy.go:295 | defines `isASCII` for a given stripper: the string is unchanged by stripping (used by `Sorter.IsASCII` and `DefaultKey`) |
| Ranking.DefaultKey | fuzzy.go:130-132 | defines the string scanned by a fresh default Sorter: stripped exactly when the query is unchanged by stripping |
| Scoring.LeadingPenalty | fuzzy.go:216-222 | the penalty is `strIdx * leadingLetterPenalty` clamped below at `maxLeadingLetterPenalty`: it is one of the two and no less than either |
| Scoring.DefaultLeadingPenalty | fuzzy.go:20-26 | with the default weights the leading penalty is 0, -3, -6 for the first three runes and -9 from then on |
| Scoring.LeadingPenaltyMonotone | fuzzy.go:216-222 | with a non-positive per-rune penalty, a later first match is never penalised less than an earlier one |
| Scoring.Evaluate | fuzzy.go:144-286 | the result echoes the query, its sort key is the scanned string, and it matches exactly when the query is a case-insensitive subsequence of the key |
| Scoring.ScanFollowsCursor | fuzzy.go:170-274 | the scan's `queryIdx` is the greedy query cursor; a pending best letter exists only after the first query rune matched, and its score is 0 when there is none |
| Subsequence.CursorIffEmbeds | fuzzy.go:240-243 | the cursor reaches the end of the query exactly when the query embeds in the key (both directions) |
| Subsequence.CursorMonotone | fuzzy.go:240-243 | the query cursor never moves back and advances by at most one per rune |
| Subsequence.CursorExhausted | fuzzy.go:173-177 | once the whole query is consumed, the cursor stays at the end of the query |
| Subsequence.CursorStopsAt | fuzzy.go:183-187 | the cursor never passes a query rune that equals none of the runes scanned |
| Subsequence.MissingRuneNoEmbedding | fuzzy.go:280-282 | a query rune absent from the key rules out a match |
| Subsequence.ContiguousEmbeds | fuzzy.go:280-282 | a query occurring contiguously, up to case, is a match |
| Subsequence.CursorAtStart | fuzzy.go:216-223 | with a non-empty query the cursor is still at 0 exactly while no rune equal to the first query rune has been seen |
| Scoring.QueryCaseIrrelevant | fuzzy.go:178-186 | upper-casing the query changes neither the verdict nor the score |
| Scoring.ScanIgnoresQueryCase | fuzzy.go:178-204 | two queries equal up to case give the same scan state after every rune |
| Scoring.StepIgnoresQueryCase | fuzzy.go:178-204 | one scan step depends on the query only through the lower-case form of its runes |
| Scoring.UnmatchedScan | fuzzy.go:256-259 | while no rune has equalled the first query rune, the cursor stays at 0, nothing is pending and every rune costs one unmatched penalty |
| Scoring.NoMatchScore | fuzzy.go:256-285 | a key with no rune equal to the first query rune scores `len * unmatchedLetterPenalty`, and matches only when the query is empty |
| Scoring.EmptyQuery | fuzzy.go:144-286 | the empty query matches every key with score `strLen * unmatchedLetterPenalty` |
| Scoring.EmptyCandidate | fuzzy.go:170-285 | the empty key scores 0 and matches only the empty query |
| Scoring.LeadingPenaltyAtFirstMatch | fuzzy.go:213-223 | the leading penalty is added at rune `i` exactly when `i` is the first rune equal to the first query rune |
| Scoring.LeadingPenaltyOnce | fuzzy.go:215-223 | the leading penalty is added at most once per key |
| Scoring.FirstRuneMatch | fuzzy.go:165-252 | a match on the first rune pays the penalty for index 0 and earns only the separator bonus, since the scan starts as if after a separator |
| Ranking.Sorter.ScanRune | fuzzy.go:170-272 | one iteration of the scan loop computes `Step` and keeps the query cursor within the query |
| Ranking.Sorter.Match | fuzzy.go:144-286 | the imperative scan returns `Evaluate` of the query and the (possibly stripped) key, so it matches exactly when the query is a subsequence of the key |
| Ranking.PrecedesIrreflexive | fuzzy.go:101-118 | no element ranks before itself |
| Ranking.PrecedesAsymmetric | fuzzy.go:101-118 | two elements never rank before each other |
| Ranking.PrecedesTransitive | fuzzy.go:101-118 | the rank order is transitive |
| Ranking.PrecedesTotal | fuzzy.go:101-118 | of two different elements, one ranks before the other |
| Ranking.InRankOrderLevels | fuzzy.go:101-118 | a ranked list, level by level (both directions): matches before non-matches, equal verdicts by descending score, equal scores in string order |
| Ranking.RankedBy | fuzzy.go:101-118 | defines data in rank order under a function giving each datum its result |
| Ranking.HeadIsLeast | fuzzy.go:101-118 | no datum of a ranked sequence ranks before its head |
| Ranking.RankedTail | fuzzy.go:101-118 | dropping the head of a ranked sequence leaves it ranked |
| Ranking.RankedHeads | fuzzy.go:101-118 | two rankings of the same data start with the same datum |
| Ranking.RankOrderUnique | fuzzy.go:101-118 | the rank order is unique: two rankings of the same multiset of data (duplicates included) are the same sequence |
| Ranking.RankingDeterministic | fuzzy.go:127-141 | a cache and its data in rank order, each result given by the same function of its datum, are fixed by the multiset of data: the sort's outcome is deterministic |
| Text.LexIrreflexive | fuzzy.go:321 | string `<` is irreflexive |
| Text.LexAsymmetric | fuzzy.go:321 | string `<` is asymmetric |
| Text.LexTransitive | fuzzy.go:321 | string `<` is transitive |
| Text.LexTotal | fuzzy.go:321 | string `<` orders any two different strings |
| Text.UpperString | fuzzy.go:181 | upper-casing keeps the length and maps every rune by `Upper`: the upper-cased query that `QueryCaseIrrelevant` compares against |
| Ranking.StrSlice.Less | fuzzy.go:321 | element `i` is less than element `j` only if they differ and `j` is not less; if they differ and `i` is not less, `j` is less |
| Ranking.StrSlice.Swap | fuzzy.go:322 | exchanges the two elements and nothing else |
| Ranking.StrSlice.constructor | fuzzy.go:317 | wraps the given array |
| Ranking.StrSlice.Sort | fuzzy.go:327-330 | sorts the slice with a default Sorter: a permutation, each result is `Evaluate` on the default key, and the results and slice are in rank order |
| Ranking.Sorter.constructor | fuzzy.go:69-86 | `New`: default weights, stripping off until a query decides it, empty query, and one result slot per element |
| Ranking.Sorter.Less | fuzzy.go:101-118 | the comparator holds exactly when the pair at `i` precedes the pair at `j` in the rank order |
| Ranking.Sorter.Swap | fuzzy.go:121-124 | exchanges positions `i` and `j` of the cache and of the data together |
| Ranking.Sorter.LessIsBefore | fuzzy.go:101-118 | on a cache that describes its data, `Less` holds exactly when the element at `i` ranks before the one at `j` |
| Ranking.Sorter.LeastFrom | fuzzy.go:138 | returns a position from `i` on whose element no later element ranks before |
| Ranking.Sorter.NewLeast | fuzzy.go:138 | an element ranked before the least so far is the new least |
| Ranking.Sorter.SelectExtendsPrefix | fuzzy.go:138 | moving the least unsorted element to the front of the unsorted part extends the sorted prefix |
| Ranking.Sorter.SelectKeepsPartition | fuzzy.go:138 | after that move, no unsorted element ranks before a sorted one |
| Ranking.Sorter.SwapDescribes | fuzzy.go:121-124 | swapping cache and data together keeps every cached result describing its element |
| Ranking.Sorter.SortedIsOrdered | fuzzy.go:138 | a coherent, sorted cache is in the order `Less` checks |
| Ranking.Sorter.SortInPlace | fuzzy.go:138 | sorting permutes the data, keeps each result with its element and leaves no element ranked before one to its left |
| Ranking.Sorter.Fill | fuzzy.go:134-136 | after filling, the cache holds `Match` of every element's key |
| Ranking.Sorter.Sort | fuzzy.go:127-141 | records the query, decides stripping from the query (on only when it is unchanged by stripping and stripping is enabled), fills the cache, sorts data and cache into rank order as a permutation, and returns the cache |
| Ranking.Sort | fuzzy.go:297-300 | a default Sorter over the data: a permutation, each result is `Evaluate` on the default key, and the results and data are in rank order |
| Ranking.SortStrings | fuzzy.go:302-305 | the same for a plain string array |
| Ranking.SortReproducible | fuzzy.go:302-305 | two sorts of arrays holding the same strings, or of one array twice, leave equal arrays and equal result caches |
| Ranking.Match | fuzzy.go:311-313 | the result for one string is `Evaluate` on its default key; it matches exactly when the query is a subsequence of that key |
| Scenarios.StripAcute | fuzzy.go:288-293 | a sample stripper: same length, `é` becomes `e` and no `é` remains, every other rune kept, and a string without `é` is returned unchanged |
| Scenarios.AccentMatters | fuzzy.go:280-282 | "né" matches "Mané" but not "Mane" |
| Scenarios.StripSadioMane | fuzzy.go:288-295 | the sample stripper strips "Sadio Mané" and leaves the plain "mane" alone |
| Scenarios.StripMane | fuzzy.go:288-295 | the sample stripper maps "Mané" to "Mane" and "né" to something else, and leaves the plain "ne" alone |
| Scenarios.PlainQueryIgnoresAccents | fuzzy.go:130-132 | a plain query "mane" is matched against the stripped "Sadio Mane", and matches |
| Scenarios.AccentedQueryKeepsAccents | fuzzy.go:130-132 | an accented query "né" leaves the keys unstripped: it matches "Sadio Mané" and not "Neco Williams" |
| Ranking.Sorter.SortAsWritten | fuzzy.go:127-141 | `Sort` with the flag as the source sets it: switched on by an enabled plain query and otherwise left as it was; fills the cache and sorts data and cache into rank order as a permutation |
| Findings.StickyResortMissesMatch | fuzzy.go:130-132 | as written, one Sorter sorted by "ne" and then by "né" still strips, so the result for "Mané" has key "Mane" and does not match, although "né" is a subsequence of "Mané" |
| Findings.ResortWithAccentedQuery | fuzzy.go:127-141 | with the per-query decision, the same two sorts on one Sorter leave "Mané" matching "né" |

## Left out

- Diacritic stripping: canonical decomposition and removal of non-spacing marks are not
  modelled. The stripper is a total function given to the Sorter (`stripper`). `isASCII` is
  "the query is unchanged by stripping", as in the source. A failing transform, whose input
  the source then keeps, folds into that function.
- Unicode case mapping: `strings.ToLower`/`ToUpper` are modelled on ASCII letters only.
  Every other rune has no case.
- Invalid UTF-8: strings are sequences of runes (`seq<char>`). Go's byte-wise string `<` is
  modelled as lexicographic order on runes, which agrees with it on valid UTF-8.
- Floating point: scores and weights are `int`. The defaults are integers, and their sums
  are exact in `float64` at any realistic key length.
- `Option` and `Configure` (and the `opts` of the top-level `Match`): weight overrides are
  not modelled. Every Sorter starts from the defaults, and `config` is a plain field that
  the model never changes.
- Go's `sort.Sort` is not modelled. `Sorter.SortInPlace` is a selection sort using the same
  `Less` and `Swap`. The final order is the same: `RankOrderUnique` proves that
  there is only one rank order of a given multiset of elements. Equal duplicates get equal
  results, so which copy lands where changes neither the data nor the cache.
- The `Sortable` interface: the data are always a `StrSlice`. Other implementers of
  `Sortable` are not part of this model.
- The cache's initial `nil` entries are a blank `Result`.
- Ranking.Sorter.Sort: computes the stripping decision afresh for every query. As written
  the source only ever sets it. See Findings.

## Findings

| source | as written | input that shows it | evidently intended | confidence | as-written member | corrected member |
|---|---|---|---|---|---|---|
| fuzzy.go:130-132 | `Sorter.Sort` sets `stripDiacritics` when the query is plain ASCII but never clears it, so the decision of an earlier sort carries over to a later one | one Sorter over ["Mané"], sorted by "ne" and then by "né": the second sort strips the key to "Mane", and "né" does not match | the decision is made per query: strip exactly when stripping is enabled and the current query is plain ASCII (the field's own comment and the documented gating) | not executed | Findings.StickyResortMissesMatch | Ranking.Sorter.Sort |

=== FILE: findings.dfy ===
/** The diacritic-stripping decision across repeated sorts. `Sorter.Sort`
    switches stripping on when the query is plain ASCII but never switches it
    off, so once a Sorter has seen a plain query, a later query with accents is
    matched against stripped keys and cannot match them. The model's
    `Ranking.Sorter.Sort` decides afresh for every query; `SortAsWritten` keeps
    the decision as written. Both are called here on the same two queries. */
module Findings {
  import opened Scoring
  import opened Ranking
  import opened Scenarios

  /** A one-element sequence is determined by its multiset. */
  lemma OnlyElement(s: seq<string>, x: string)
    requires |s| == 1 && multiset(s) == multiset{x}
    ensures s == [x]
  {
    assert s[0] in multiset(s);
  }

  /** Sorting by "ne" and then by "né" as written: the second sort still strips,
      so "Mané" is scanned as "Mane" and does not match "né", although "né" is a
      subsequence of "Mané". */
  method StickyResortMissesMatch() returns (r: Result)
    ensures r.query == "né" && r.sortKey == "Mane"
    ensures !r.matched
    ensures Evaluate(Default, "né", "Mané").matched
  {
    var single := new string[1](_ => "Mané");
    assert single[..] == ["Mané"];
    ghost var bag := multiset(single[..]);
    assert bag == multiset{"Mané"};
    var slice := new StrSlice(single);
    var sorter := new Sorter(slice, StripAcute);
    StripMane();
    var first := sorter.SortAsWritten("ne");
    assert sorter.stripDiacritics;
    var second := sorter.SortAsWritten("né");
    assert sorter.stripDiacritics;
    OnlyElement(slice.elems[..], "Mané");
    assert second[..][0] == sorter.Rank(slice.elems[..][0]);
    AccentMatters();
    r := second[0];
  }

  /** The same two sorts with the per-query decision: the second query decides
      afresh, the keys stay unstripped and "Mané" matches "né". */
  method ResortWithAccentedQuery() returns (r: Result)
    ensures r.query == "né" && r.sortKey == "Mané"
    ensures r.matched
  {
    var single := new string[1](_ => "Mané");
    assert single[..] == ["Mané"];
    ghost var bag := multiset(single[..]);
    assert bag == multiset{"Mané"};
    var slice := new StrSlice(single);
    var sorter := new Sorter(slice, StripAcute);
    StripMane();
    var first := sorter.Sort("ne");
    var second := sorter.Sort("né");
    assert !sorter.stripDiacritics;
    OnlyElement(slice.elems[..], "Mané");
    assert second[..][0] == sorter.Rank(slice.elems[..][0]);
    AccentMatters();
    r := second[0];
  }
}

=== FILE: ranking.dfy ===
/** The ranker: a Sorter scores every key of a string slice against the query,
    caches one Result per position, and sorts the slice and the cache together
    so that matches come first, then higher scores, then the slice's own order. */
module Ranking {
  import opened Text
  import opened Subsequence
  import opened Scoring

  /** The rank order of two (result, datum) pairs, as a lexicographic comparison
      of the keys (not matched, -score, datum). */
  predicate Precedes(a: Result, x: string, b: Result, y: string) {
    var ka, kb := (if a.matched then 0 else 1), (if b.matched then 0 else 1);
    ka < kb || (ka == kb && (-a.score < -b.score || (a.score == b.score && LexLess(x, y))))
  }

  /** Precedes is a strict order on pairs that is total on distinct data: no
      pair precedes itself, it is asymmetric and transitive, and of two pairs
      with different data one precedes the other. */
  lemma PrecedesIrreflexive(a: Result, x: string)
    ensures !Precedes(a, x, a, x)
  {
    LexIrreflexive(x);
  }

  lemma PrecedesAsymmetric(a: Result, x: string, b: Result, y: string)
    ensures Precedes(a, x, b, y) ==> !Precedes(b, y, a, x)
  {
    LexAsymmetric(x, y);
  }

  lemma PrecedesTransitive(a: Result, x: string, b: Result, y: string, c: Result, z: string)
    requires Precedes(a, x, b, y) && Precedes(b, y, c, z)
    ensures Precedes(a, x, c, z)
  {
    if LexLess(x, y) && LexLess(y, z) {
      LexTransitive(x, y, z);
    }
  }

  lemma PrecedesTotal(a: Result, x: string, b: Result, y: string)
    requires x != y
    ensures Precedes(a, x, b, y) || Precedes(b, y, a, x)
  {
    LexTotal(x, y);
  }

  /** A cache and its data in rank order: no pair precedes one to its left. */
  predicate InRankOrder(rs: seq<Result>, ds: seq<string>)
    requires |rs| == |ds|
  {
    forall p, q :: 0 <= p < q < |rs| ==> !Precedes(rs[q], ds[q], rs[p], ds[p])
  }

  /** Rank order spelled out level by level: matches before non-matches, then
      higher scores first, then ties in string order. */
  lemma InRankOrderLevels(rs: seq<Result>, ds: seq<string>)
    requires |rs| == |ds|
    ensures InRankOrder(rs, ds) <==> forall p, q :: 0 <= p < q < |rs| ==>
      && (rs[p].matched || !rs[q].matched)
      && (rs[p].matched == rs[q].matched ==> rs[p].score >= rs[q].score)
      && (rs[p].matched == rs[q].matched && rs[p].score == rs[q].score ==> !LexLess(ds[q], ds[p]))
  {
  }

  /** Data ordered by the results a function `R` gives each datum: no datum
      ranks before one to its left. */
  ghost predicate RankedBy(R: string -> Result, ds: seq<string>) {
    forall p, q :: 0 <= p < q < |ds| ==> !Precedes(R(ds[q]), ds[q], R(ds[p]), ds[p])
  }

  /** No datum of a ranked sequence ranks before its head. */
  lemma HeadIsLeast(R: string -> Result, ds: seq<string>, x: string)
    requires RankedBy(R, ds) && x in ds
    ensures !Precedes(R(x), x, R(ds[0]), ds[0])
  {
    var j :| 0 <= j < |ds| && ds[j] == x;
    if j == 0 {
      PrecedesIrreflexive(R(x), x);
    }
  }

  /** Dropping the head of a ranked sequence leaves it ranked. */
  lemma RankedTail(R: string -> Result, ds: seq<string>)
    requires RankedBy(R, ds) && ds != []
    ensures RankedBy(R, ds[1..])
  {
    forall p, q | 0 <= p < q < |ds| - 1
      ensures !Precedes(R(ds[1..][q]), ds[1..][q], R(ds[1..][p]), ds[1..][p])
    {
      assert ds[1..][q] == ds[q + 1] && ds[1..][p] == ds[p + 1];
    }
  }

  /** Two rankings of the same nonempty multiset of data start with the same datum. */
  lemma RankedHeads(R: string -> Result, ds1: seq<string>, ds2: seq<string>)
    requires multiset(ds1) == multiset(ds2) && ds1 != []
    requires RankedBy(R, ds1) && RankedBy(R, ds2)
    ensures ds2 != [] && ds1[0] == ds2[0]
  {
    assert ds1[0] in multiset(ds2);
    var a, b := ds1[0], ds2[0];
    assert b in multiset(ds1);
    HeadIsLeast(R, ds2, a);
    HeadIsLeast(R, ds1, b);
    if a != b {
      PrecedesTotal(R(a), a, R(b), b);
    }
  }

  /** The rank order is unique: two rankings of the same multiset of data are
      the same sequence, duplicates included. */
  lemma {:induction false} RankOrderUnique(R: string -> Result, ds1: seq<string>, ds2: seq<string>)
    requires multiset(ds1) == multiset(ds2)
    requires RankedBy(R, ds1) && RankedBy(R, ds2)
    ensures ds1 == ds2
    decreases |ds1|
  {
    if ds1 == [] {
      assert |multiset(ds2)| == 0;
    } else {
      RankedHeads(R, ds1, ds2);
      var a := ds1[0];
      assert ds1 == [a] + ds1[1..] && ds2 == [a] + ds2[1..];
      assert multiset(ds1[1..]) == multiset(ds1) - multiset{a};
      assert multiset(ds2[1..]) == multiset(ds2) - multiset{a};
      RankedTail(R, ds1);
      RankedTail(R, ds2);
      RankOrderUnique(R, ds1[1..], ds2[1..]);
    }
  }

  /** Ranking is deterministic: a cache and its data in rank order, where each
      result is what `R` gives its datum, are fixed by the multiset of data. */
  lemma RankingDeterministic(R: string -> Result, rs1: seq<Result>, ds1: seq<string>, rs2: seq<Result>, ds2: seq<string>)
    requires |rs1| == |ds1| && |rs2| == |ds2|
    requires forall k :: 0 <= k < |ds1| ==> rs1[k] == R(ds1[k])
    requires forall k :: 0 <= k < |ds2| ==> rs2[k] == R(ds2[k])
    requires InRankOrder(rs1, ds1) && InRankOrder(rs2, ds2)
    requires multiset(ds1) == multiset(ds2)
    ensures ds1 == ds2 && rs1 == rs2
  {
    RankOrderUnique(R, ds1, ds2);
  }

  /** `strSlice`: a slice of strings, sortable by itself, keyed by itself. */
  class StrSlice {
    const elems: array<string>

    constructor (elems: array<string>)
      ensures this.elems == elems
    {
      this.elems := elems;
    }

    function Len(): nat {
      elems.Length
    }

    /** String order as the tie-break: a strict total order on the elements. */
    function Less(i: nat, j: nat): (b: bool)
      reads elems
      requires i < elems.Length && j < elems.Length
      ensures b ==> elems[i] != elems[j] && !LexLess(elems[j], elems[i])
      ensures elems[i] != elems[j] && !b ==> LexLess(elems[j], elems[i])
    {
      LexIrreflexive(elems[i]);
      LexAsymmetric(elems[i], elems[j]);
      LexTotal(elems[i], elems[j]);
      LexLess(elems[i], elems[j])
    }

    method Swap(i: nat, j: nat)
      requires i < elems.Length && j < elems.Length
      modifies elems
      ensures elems[..] == old(elems[..])[i := old(elems[j])][j := old(elems[i])]
    {
      elems[i], elems[j] := elems[j], elems[i];
    }

    /** The key of an element is the element itself. */
    function Keywords(i: nat): string
      reads elems
      requires i < elems.Length
    {
      elems[i]
    }

    /** The convenience `Sort`: a default Sorter over this slice. */
    method Sort(query: string, stripper: string -> string) returns (res: array<Result>)
      modifies elems
      ensures res.Length == elems.Length
      ensures multiset(elems[..]) == old(multiset(elems[..]))
      ensures forall k :: 0 <= k < res.Length ==>
        res[k] == Evaluate(Default, query, DefaultKey(stripper, query, elems[k]))
      ensures InRankOrder(res[..], elems[..])
    {
      var sorter := new Sorter(this, stripper);
      res := sorter.Sort(query);
      assert forall k :: 0 <= k < res.Length ==> res[..][k] == sorter.Rank(elems[..][k]);
    }
  }

  /** Sorts a string slice against a query. `stripper` is the diacritic
      stripper (canonical decomposition, then removal of non-spacing marks). */
  class Sorter {
    const data: StrSlice
    const results: array<Result>
    const stripper: string -> string
    var config: Config
    var stripDiacritics: bool  // the per-query decision, from config and query
    var query: string

    ghost predicate Valid() {
      results.Length == data.elems.Length
    }

    /** `New` with the default weights: no query yet, one (blank) result slot per element. */
    constructor (data: StrSlice, stripper: string -> string)
      ensures this.data == data && this.stripper == stripper
      ensures config == Default && !stripDiacritics && query == ""
      ensures fresh(results) && Valid()
    {
      this.data := data;
      this.stripper := stripper;
      config := Default;
      stripDiacritics := false;
      query := "";
      results := new Result[data.elems.Length](_ => Result(false, "", 0, ""));
    }

    function Len(): nat {
      data.Len()
    }

    /** `isASCII` with this Sorter's stripper. */
    function IsASCII(str: string): bool {
      Unstripped(stripper, str)
    }

    /** The string actually scanned for key `str` under the current decision. */
    function Scanned(str: string): string
      reads this
    {
      if stripDiacritics then stripper(str) else str
    }

    /** The result key `str` gets under the current query and settings. */
    ghost function Rank(str: string): Result
      reads this
    {
      Evaluate(config, query, Scanned(str))
    }

    /** Each cached result describes the datum at the same position. */
    ghost predicate Describes(rs: seq<Result>, ds: seq<string>)
      reads this
    {
      |rs| == |ds| && forall k :: 0 <= k < |rs| ==> rs[k] == Rank(ds[k])
    }

    /** The cache describes the element at each position. */
    ghost predicate Coherent()
      reads this, results, data.elems
    {
      Describes(results[..], data.elems[..])
    }

    /** No element is ranked before one to its left. */
    ghost predicate Ordered()
      reads this, results, data.elems
      requires Valid()
    {
      InRankOrder(results[..], data.elems[..])
    }

    /** Scores `str` against the query: one pass over its runes with a single
        query cursor, the scan state carried from rune to rune. */
    method Match(str: string) returns (r: Result)
      ensures r.query == query && r.sortKey == Scanned(str)
      ensures r.matched <==> Embeds(query, Scanned(str))
      ensures r == Evaluate(config, query, Scanned(str))
    {
      var key := str;
      if stripDiacritics {
        key := stripper(str);
      }
      var st := Start;
      var strIdx := 0;
      while strIdx != |key|
        invariant strIdx <= |key| && st.queryIdx <= |query|
        invariant st == Scan(config, query, key, strIdx)
        decreases |key| - strIdx
      {
        st := ScanRune(st, strIdx, key[strIdx]);
        strIdx := strIdx + 1;
      }
      var score := st.score;
      if st.bestLetter.Some? {
        score := score + st.bestLetterScore;
      }
      r := Result(st.queryIdx == |query|, query, score, key);
      assert r == Evaluate(config, query, key);
    }

    /** One iteration of the scan of `Match`, on rune `strChar` at `strIdx`. */
    method ScanRune(st: ScanState, strIdx: nat, strChar: char) returns (next: ScanState)
      requires st.queryIdx <= |query|
      ensures next.queryIdx <= |query|
      ensures next == Step(config, query, st, strIdx, strChar)
    {
      var w := config;
      var queryIdx, score, bestLetter, bestLetterScore := st.queryIdx, st.score, st.bestLetter, st.bestLetterScore;
      var prevMatched, prevLower, prevSeparator := st.prevMatched, st.prevLower, st.prevSeparator;

      var queryChar: Option<char> := if queryIdx != |query| then Some(query[queryIdx]) else None;
      var queryLower: Option<char> := if queryChar.Some? then Some(Lower(queryChar.value)) else None;
      var strLower, strUpper := Lower(strChar), Upper(strChar);

      var nextMatch := queryChar.Some? && queryLower == Some(strLower);
      var rematch := bestLetter.Some? && Lower(bestLetter.value) == strLower;
      var advanced := nextMatch && bestLetter.Some?;
      var queryRepeat := bestLetter.Some? && queryLower.Some? && Lower(bestLetter.value) == queryLower.value;
      assert nextMatch == NextMatch(query, st, strChar) && rematch == Rematch(st, strChar);
      assert advanced || queryRepeat <==> Commits(query, st, strChar);

      if advanced || queryRepeat {
        score := score + bestLetterScore;
        bestLetter := None;
        bestLetterScore := 0;
      }
      ghost var commits := Commits(query, st, strChar);
      ghost var target := Step(w, query, st, strIdx, strChar);
      assert bestLetter == (if commits then None else st.bestLetter);
      assert bestLetterScore == (if commits then 0 else st.bestLetterScore);
      assert score == st.score + if commits then st.bestLetterScore else 0;

      if nextMatch || rematch {
        var newScore := 0;
        if queryIdx == 0 {
          var penalty := strIdx * w.leadingLetterPenalty;
          if penalty <= w.maxLeadingLetterPenalty {
            penalty := w.maxLeadingLetterPenalty;
          }
          assert penalty == LeadingPenalty(w, strIdx);
          score := score + penalty;
        }
        assert score == st.score + (if commits then st.bestLetterScore else 0)
                        + (if st.queryIdx == 0 then LeadingPenalty(w, strIdx) else 0);
        if prevMatched {
          newScore := newScore + w.adjacencyBonus;
        }
        if prevSeparator {
          newScore := newScore + w.separatorBonus;
        }
        if prevLower && strChar == strUpper && strLower != strUpper {
          newScore := newScore + w.camelBonus;
        }
        assert newScore == Bonus(w, st, strChar);
        if nextMatch {
          queryIdx := queryIdx + 1;
        }
        assert newScore >= bestLetterScore <==> TakesLead(w, query, st, strChar);
        if newScore >= bestLetterScore {
          if bestLetter.Some? {
            score := score + w.unmatchedLetterPenalty;
          }
          bestLetter := Some(strChar);
          bestLetterScore := newScore;
        }
        prevMatched := true;
        assert queryIdx == target.queryIdx <= |query| && score == target.score;
        assert bestLetter == target.bestLetter && bestLetterScore == target.bestLetterScore;
        assert prevMatched == target.prevMatched;
      } else {
        score := score + w.unmatchedLetterPenalty;
        prevMatched := false;
        assert queryIdx == target.queryIdx <= |query| && score == target.score;
        assert bestLetter == target.bestLetter && bestLetterScore == target.bestLetterScore;
        assert prevMatched == target.prevMatched;
      }

      prevLower := strChar == strLower && strLower != strUpper;
      prevSeparator := strChar == '_' || strChar == ' ' || strChar == '.' || strChar == '-' || strChar == '/';
      assert prevLower == target.prevLower && prevSeparator == target.prevSeparator;
      next := ScanState(queryIdx, score, bestLetter, bestLetterScore, prevMatched, prevLower, prevSeparator);
    }

    /** The three-level comparator on the cached results at `i` and `j`. */
    function Less(i: nat, j: nat): (b: bool)
      reads this, results, data.elems
      requires Valid() && i < results.Length && j < results.Length
      ensures b <==> Precedes(results[i], data.elems[i], results[j], data.elems[j])
    {
      var a, b := results[i], results[j];
      if a.matched && !b.matched then true
      else if !a.matched && b.matched then false
      else if a.score == b.score then data.Less(i, j)
      else b.score < a.score
    }

    /** Exchanges positions `i` and `j` of the cache and of the slice together. */
    method Swap(i: nat, j: nat)
      requires Valid() && i < results.Length && j < results.Length
      modifies results, data.elems
      ensures results[..] == old(results[..])[i := old(results[j])][j := old(results[i])]
      ensures data.elems[..] == old(data.elems[..])[i := old(data.elems[j])][j := old(data.elems[i])]
    {
      results[i], results[j] := results[j], results[i];
      data.Swap(i, j);
    }

    /** The rank order on data under the current query, through their results. */
    ghost predicate Before(x: string, y: string)
      reads this
    {
      Precedes(Rank(x), x, Rank(y), y)
    }

    /** The first `i` data are in rank order. */
    ghost predicate SortedPrefix(ds: seq<string>, i: nat)
      reads this
    {
      forall p, q :: 0 <= p < q < i && q < |ds| ==> !Before(ds[q], ds[p])
    }

    /** None of the data from `i` on is ranked before any of the first `i`. */
    ghost predicate Partitioned(ds: seq<string>, i: nat)
      reads this
    {
      forall p, q :: 0 <= p < i <= q < |ds| ==> !Before(ds[q], ds[p])
    }

    /** A datum ranked before the least one so far is the new least one. */
    lemma NewLeast(ds: seq<string>, i: nat, j: nat, m: nat)
      requires i <= m < j < |ds|
      requires forall k :: i <= k < j ==> !Before(ds[k], ds[m])
      requires Before(ds[j], ds[m])
      ensures forall k :: i <= k <= j ==> !Before(ds[k], ds[j])
    {
      forall k | i <= k <= j
        ensures !Before(ds[k], ds[j])
      {
        var x, y, z := ds[k], ds[j], ds[m];
        if Before(x, y) {
          PrecedesTransitive(Rank(x), x, Rank(y), y, Rank(z), z);
        }
        PrecedesIrreflexive(Rank(y), y);
      }
    }

    /** Moving the least of the unsorted data to position `i` extends the sorted
        prefix by one. */
    lemma SelectExtendsPrefix(ds: seq<string>, i: nat, m: nat)
      requires i <= m < |ds|
      requires SortedPrefix(ds, i) && Partitioned(ds, i)
      ensures SortedPrefix(ds[i := ds[m]][m := ds[i]], i + 1)
    {
      var es := ds[i := ds[m]][m := ds[i]];
      forall p, q | 0 <= p < q < i + 1 && q < |es|
        ensures !Before(es[q], es[p])
      {
        if q < i {
          assert es[q] == ds[q] && es[p] == ds[p];
        } else {
          assert es[q] == ds[m] && es[p] == ds[p];
        }
      }
    }

    /** ... and leaves nothing after it that ranks before any of the prefix. */
    lemma SelectKeepsPartition(ds: seq<string>, i: nat, m: nat)
      requires i <= m < |ds|
      requires Partitioned(ds, i)
      requires forall k :: i <= k < |ds| ==> !Before(ds[k], ds[m])
      ensures Partitioned(ds[i := ds[m]][m := ds[i]], i + 1)
    {
      var es := ds[i := ds[m]][m := ds[i]];
      forall p, q | 0 <= p < i + 1 <= q < |es|
        ensures !Before(es[q], es[p])
      {
        var k := if q == m then i else q;
        assert es[q] == ds[k];
        if p < i {
          assert es[p] == ds[p];
        } else {
          assert es[p] == ds[m];
        }
      }
    }

    /** Swapping a cache and its data together keeps the cache describing them. */
    lemma SwapDescribes(rs: seq<Result>, ds: seq<string>, i: nat, m: nat)
      requires i < |ds| && m < |ds| && Describes(rs, ds)
      ensures Describes(rs[i := rs[m]][m := rs[i]], ds[i := ds[m]][m := ds[i]])
    {
    }

    /** On a coherent cache, `Less` is the rank order of the data. */
    lemma LessIsBefore(i: nat, j: nat)
      requires Valid() && Coherent() && i < results.Length && j < results.Length
      ensures Less(i, j) <==> Before(data.elems[i], data.elems[j])
    {
      assert results[..][i] == Rank(data.elems[..][i]) && results[..][j] == Rank(data.elems[..][j]);
    }

    /** The position of a least-ranked datum from `i` on, by `Less`. */
    method LeastFrom(i: nat) returns (m: nat)
      requires Valid() && Coherent() && i < results.Length
      ensures i <= m < results.Length
      ensures forall k :: i <= k < results.Length ==> !Before(data.elems[k], data.elems[m])
    {
      m := i;
      var j := i + 1;
      PrecedesIrreflexive(Rank(data.elems[i]), data.elems[i]);
      while j < Len()
        invariant i <= m < j <= results.Length
        invariant forall k :: i <= k < j ==> !Before(data.elems[k], data.elems[m])
      {
        LessIsBefore(j, m);
        if Less(j, m) {
          NewLeast(data.elems[..], i, j, m);
          m := j;
        }
        j := j + 1;
      }
    }

    /** A sorted, coherent cache is in the order `Less` checks. */
    lemma SortedIsOrdered()
      requires Valid() && Coherent() && SortedPrefix(data.elems[..], results.Length)
      ensures Ordered()
    {
      var rs, ds := results[..], data.elems[..];
      forall p, q | 0 <= p < q < |rs|
        ensures !Precedes(rs[q], ds[q], rs[p], ds[p])
      {
        assert rs[q] == Rank(ds[q]) && rs[p] == Rank(ds[p]);
      }
    }

    /** Sorts the slice and the cache in place by `Less`, with `Swap`. */
    method SortInPlace()
      requires Valid() && Coherent()
      modifies results, data.elems
      ensures Coherent() && Ordered()
      ensures multiset(data.elems[..]) == old(multiset(data.elems[..]))
    {
      var i := 0;
      while i < Len()
        invariant i <= results.Length
        invariant Coherent()
        invariant multiset(data.elems[..]) == old(multiset(data.elems[..]))
        invariant SortedPrefix(data.elems[..], i) && Partitioned(data.elems[..], i)
      {
        var m := LeastFrom(i);
        ghost var ds, rs := data.elems[..], results[..];
        SelectExtendsPrefix(ds, i, m);
        SelectKeepsPartition(ds, i, m);
        SwapDescribes(rs, ds, i, m);
        Swap(i, m);
        i := i + 1;
      }
      SortedIsOrdered();
    }

    /** Fills the cache with the result of `Match` on every key. */
    method Fill()
      requires Valid()
      modifies results
      ensures Coherent()
    {
      var i := 0;
      while i < data.Len()
        invariant i <= results.Length
        invariant forall k :: 0 <= k < i ==> results[k] == Rank(data.elems[k])
      {
        var r := Match(data.Keywords(i));
        results[i] := r;
        i := i + 1;
      }
    }

    /** Scores every element against `query`, caches the results, and sorts the
        slice and the cache together; returns the cache. */
    method Sort(query: string) returns (res: array<Result>)
      requires Valid()
      modifies this, results, data.elems
      ensures res == results && Valid()
      ensures this.query == query && config == old(config)
      ensures stripDiacritics == (IsASCII(query) && config.stripDiacritics)
      ensures multiset(data.elems[..]) == old(multiset(data.elems[..]))
      ensures Coherent() && Ordered()
    {
      this.query := query;
      stripDiacritics := IsASCII(query) && config.stripDiacritics;
      Fill();
      SortInPlace();
      res := results;
    }

    /** `Sort` with the stripping decision exactly as the source makes it: a
        plain query switches stripping on, and nothing switches it off. */
    method SortAsWritten(query: string) returns (res: array<Result>)
      requires Valid()
      modifies this, results, data.elems
      ensures res == results && Valid()
      ensures this.query == query && config == old(config)
      ensures stripDiacritics == (old(stripDiacritics) || (IsASCII(query) && config.stripDiacritics))
      ensures multiset(data.elems[..]) == old(multiset(data.elems[..]))
      ensures Coherent() && Ordered()
    {
      this.query := query;
      if IsASCII(query) && config.stripDiacritics {
        stripDiacritics := true;
      }
      Fill();
      SortInPlace();
      res := results;
    }
  }

  /** `isASCII`, for a given stripper: `str` is unchanged by stripping. */
  predicate Unstripped(stripper: string -> string, str: string) {
    stripper(str) == str
  }

  /** The sort key of `str` for a default Sorter given `query`: stripped of
      diacritics exactly when the query has none. */
  function DefaultKey(stripper: string -> string, query: string, str: string): string {
    if Unstripped(stripper, query) then stripper(str) else str
  }

  /** `Sort`: a default Sorter over `data`, sorted against `query`. */
  method Sort(data: StrSlice, query: string, stripper: string -> string) returns (res: array<Result>)
    modifies data.elems
    ensures res.Length == data.elems.Length
    ensures multiset(data.elems[..]) == old(multiset(data.elems[..]))
    ensures forall k :: 0 <= k < res.Length ==>
      res[k] == Evaluate(Default, query, DefaultKey(stripper, query, data.elems[k]))
    ensures InRankOrder(res[..], data.elems[..])
  {
    var s := new Sorter(data, stripper);
    res := s.Sort(query);
    assert forall k :: 0 <= k < res.Length ==> res[..][k] == s.Rank(data.elems[..][k]);
  }

  /** `SortStrings`: sorts a string slice in place against `query`. */
  method SortStrings(data: array<string>, query: string, stripper: string -> string) returns (res: array<Result>)
    modifies data
    ensures res.Length == data.Length
    ensures multiset(data[..]) == old(multiset(data[..]))
    ensures forall k :: 0 <= k < res.Length ==>
      res[k] == Evaluate(Default, query, DefaultKey(stripper, query, data[k]))
    ensures InRankOrder(res[..], data[..])
  {
    var slice := new StrSlice(data);
    res := slice.Sort(query, stripper);
  }

  /** Sorting is reproducible: two slices holding the same strings end up equal,
      element by element, and so do their result caches. The slices may be one
      and the same array, sorted twice. */
  method SortReproducible(x: array<string>, y: array<string>, query: string, stripper: string -> string)
    returns (rx: array<Result>, ry: array<Result>)
    requires multiset(x[..]) == multiset(y[..])
    modifies x, y
    ensures x[..] == y[..] && rx[..] == ry[..]
  {
    ghost var R := s => Evaluate(Default, query, DefaultKey(stripper, query, s));
    rx := SortStrings(x, query, stripper);
    ghost var xs, rxs := x[..], rx[..];
    assert multiset(y[..]) == multiset(xs);
    ry := SortStrings(y, query, stripper);
    RankingDeterministic(R, rxs, xs, ry[..], y[..]);
    if x != y {
      assert x[..] == xs;
    }
  }

  /** `Match`: the result of one string against `query`, through a one-element
      default Sorter. */
  method Match(str: string, query: string, stripper: string -> string) returns (r: Result)
    ensures r == Evaluate(Default, query, DefaultKey(stripper, query, str))
    ensures r.matched <==> Embeds(query, DefaultKey(stripper, query, str))
    ensures r.query == query
  {
    var single := new string[1](_ => str);
    var slice := new StrSlice(single);
    var res := Sort(slice, query, stripper);
    assert slice.elems[..] == [str] by {
      assert multiset(slice.elems[..]) == multiset{str};
    }
    r := res[0];
  }
}

=== FILE: scenarios.dfy ===
/** The behaviour shown by the repository's string-slice example, on a small
    stripper that only knows the acute `é`: a plain query ignores accents in
    the keys, a query with accents does not. */
module Scenarios {
  import opened Subsequence
  import opened Scoring
  import opened Ranking

  /** A small diacritic stripper: `é` loses its accent, every other rune stays. */
  function StripAcute(s: string): (t: string)
    ensures |t| == |s| && 'é' !in t
    ensures forall i :: 0 <= i < |s| ==> t[i] == (if s[i] == 'é' then 'e' else s[i])
    ensures 'é' !in s ==> t == s
  {
    seq(|s|, i requires 0 <= i < |s| => if s[i] == 'é' then 'e' else s[i])
  }

  /** "né" is a subsequence of "Mané" but not of "Mane". */
  lemma AccentMatters()
    ensures Evaluate(Default, "né", "Mané").matched
    ensures !Evaluate(Default, "né", "Mane").matched
  {
    var q, s := "né", "Mane";
    assert IsEmbedding(q, "Mané", [2, 3]);
    MissingRuneNoEmbedding(q, s, 1);
  }

  /** Stripping takes the accent off "Sadio Mané" and leaves "mane" alone. */
  lemma StripSadioMane()
    ensures StripAcute("Sadio Mané") == "Sadio Mane"
    ensures StripAcute("mane") == "mane"
  {
    var key := StripAcute("Sadio Mané");
    assert |key| == 10 && key[9] == 'e';
    assert forall i | 0 <= i < 9 :: key[i] == "Sadio Mane"[i];
  }

  /** The sample stripper takes the accent off "Mané" and "né" and leaves "ne" alone. */
  lemma StripMane()
    ensures StripAcute("Mané") == "Mane"
    ensures StripAcute("ne") == "ne" && StripAcute("né") != "né"
  {
    assert StripAcute("né")[1] == 'e';
    var key := StripAcute("Mané");
    assert |key| == 4 && key[3] == 'e';
    assert forall i | 0 <= i < 3 :: key[i] == "Mane"[i];
  }

  /** A plain query "mane" is matched against the stripped key "Sadio Mane". */
  lemma PlainQueryIgnoresAccents()
    ensures DefaultKey(StripAcute, "mane", "Sadio Mané") == "Sadio Mane"
    ensures Evaluate(Default, "mane", DefaultKey(StripAcute, "mane", "Sadio Mané")).matched
  {
    StripSadioMane();
    ContiguousEmbeds("mane", "Sadio Mane", 6);
  }

  /** A query with an accent keeps the keys as they are: "né" matches
      "Sadio Mané" and not "Neco Williams". */
  lemma AccentedQueryKeepsAccents()
    ensures DefaultKey(StripAcute, "né", "Sadio Mané") == "Sadio Mané"
    ensures DefaultKey(StripAcute, "né", "Neco Williams") == "Neco Williams"
    ensures Evaluate(Default, "né", "Sadio Mané").matched
    ensures !Evaluate(Default, "né", "Neco Williams").matched
  {
    assert StripAcute("né")[1] == 'e';
    ContiguousEmbeds("né", "Sadio Mané", 8);
    MissingRuneNoEmbedding("né", "Neco Williams", 1);
  }
}

=== FILE: scoring.dfy ===
/** The fuzzy scorer: one left-to-right pass over the candidate's runes with a
    single cursor into the query, written as a step function over an explicit
    scan state. The imperative loop that computes it is `Ranking.Sorter.Match`. */
module Scoring {
  import opened Text
  import opened Subsequence

  datatype Option<T> = None | Some(value: T)

  /** The tunable bonuses and penalties of a Sorter, and its stripping switch. */
  datatype Config = Config(
    adjacencyBonus: int,           // previous rune also matched
    separatorBonus: int,           // previous rune is a separator (or there is none)
    camelBonus: int,               // lower-case rune followed by an upper-case one
    leadingLetterPenalty: int,     // per rune before the first match
    maxLeadingLetterPenalty: int,  // floor of the leading-letter penalty
    unmatchedLetterPenalty: int,   // per rune that is not used
    stripDiacritics: bool)         // strip keys when the query is plain ASCII

  /** The defaults of `New`; every weight is a whole number. */
  const Default := Config(5, 10, 10, -3, -9, -1, true)

  /** The outcome of scoring one candidate: the verdict, the query echoed, the
      score and the string actually scanned. */
  datatype Result = Result(matched: bool, query: string, score: int, sortKey: string)

  /** The variables the scan carries from one rune to the next. `bestLetter` is
      the pending letter (the source's empty string is `None`). */
  datatype ScanState = ScanState(
    queryIdx: nat,
    score: int,
    bestLetter: Option<char>,
    bestLetterScore: int,
    prevMatched: bool,
    prevLower: bool,
    prevSeparator: bool)

  /** Before the first rune: the start of the string counts as a separator. */
  const Start := ScanState(0, 0, None, 0, false, false, true)

  /** The penalty for `strIdx` runes before the first match: `strIdx` times the
      per-rune penalty, clamped from below at the floor. */
  function LeadingPenalty(w: Config, strIdx: nat): (p: int)
    ensures p >= w.maxLeadingLetterPenalty && p >= strIdx * w.leadingLetterPenalty
    ensures p == w.maxLeadingLetterPenalty || p == strIdx * w.leadingLetterPenalty
  {
    var penalty := strIdx * w.leadingLetterPenalty;
    if penalty <= w.maxLeadingLetterPenalty then w.maxLeadingLetterPenalty else penalty
  }

  /** `nextMatch`: the rune is the next query rune, up to case. */
  predicate NextMatch(q: string, st: ScanState, c: char) {
    st.queryIdx < |q| && CaseEq(q[st.queryIdx], c)
  }

  /** `rematch`: the rune repeats the pending letter, up to case. */
  predicate Rematch(st: ScanState, c: char) {
    st.bestLetter.Some? && CaseEq(st.bestLetter.value, c)
  }

  /** `queryRepeat`: the pending letter equals the current query rune, up to case. */
  predicate QueryRepeat(q: string, st: ScanState) {
    st.bestLetter.Some? && st.queryIdx < |q| && CaseEq(st.bestLetter.value, q[st.queryIdx])
  }

  /** The bonus a matching rune earns from the runes before it (`newScore`). */
  function Bonus(w: Config, st: ScanState, c: char): int {
    (if st.prevMatched then w.adjacencyBonus else 0)
    + (if st.prevSeparator then w.separatorBonus else 0)
    + (if st.prevLower && IsUpperLetter(c) then w.camelBonus else 0)
  }

  /** Whether the pending letter is committed before rune `c` is scored: the
      query advances past it, or it repeats the current query rune. */
  predicate Commits(q: string, st: ScanState, c: char) {
    (NextMatch(q, st, c) && st.bestLetter.Some?) || QueryRepeat(q, st)
  }

  /** Whether rune `c` takes part in a match (the next query rune or a repeat
      of the pending letter); any other rune is unmatched. */
  predicate Matches(q: string, st: ScanState, c: char) {
    NextMatch(q, st, c) || Rematch(st, c)
  }

  /** Whether the step on `c` adds the leading-letter penalty: it enters the
      match branch while the cursor is still at the first query rune. */
  predicate PaysLeadingPenalty(q: string, st: ScanState, c: char) {
    Matches(q, st, c) && st.queryIdx == 0
  }

  /** Whether a matching rune becomes the pending letter: it scores at least as
      well as the letter still pending after the commit. */
  predicate TakesLead(w: Config, q: string, st: ScanState, c: char) {
    Matches(q, st, c)
    && Bonus(w, st, c) >= (if Commits(q, st, c) then 0 else st.bestLetterScore)
  }

  /** One iteration of the scan loop, on rune `c` at index `strIdx`. The score
      gains the committed pending score, the leading-letter penalty at the first
      match, one unmatched-letter penalty for a displaced pending letter, and one
      for an unmatched rune. */
  function Step(w: Config, q: string, st: ScanState, strIdx: nat, c: char): ScanState {
    var commits := Commits(q, st, c);
    var pending := if commits then None else st.bestLetter;
    var pendingScore := if commits then 0 else st.bestLetterScore;
    var takes := TakesLead(w, q, st, c);
    ScanState(
      queryIdx := if NextMatch(q, st, c) then st.queryIdx + 1 else st.queryIdx,
      score := st.score
        + (if commits then st.bestLetterScore else 0)
        + (if PaysLeadingPenalty(q, st, c) then LeadingPenalty(w, strIdx) else 0)
        + (if takes && pending.Some? then w.unmatchedLetterPenalty else 0)
        + (if Matches(q, st, c) then 0 else w.unmatchedLetterPenalty),
      bestLetter := if takes then Some(c) else pending,
      bestLetterScore := if takes then Bonus(w, st, c) else pendingScore,
      prevMatched := Matches(q, st, c),
      prevLower := IsLowerLetter(c),
      prevSeparator := IsSeparator(c))
  }

  /** The scan state after the first `n` runes of `s`. */
  function Scan(w: Config, q: string, s: string, n: nat): ScanState
    requires n <= |s|
  {
    if n == 0 then Start else Step(w, q, Scan(w, q, s, n - 1), n - 1, s[n - 1])
  }

  /** After the loop: flush the pending letter and read off the verdict. */
  function Finish(q: string, s: string, st: ScanState): Result {
    var score := if st.bestLetter.Some? then st.score + st.bestLetterScore else st.score;
    Result(st.queryIdx == |q|, q, score, s)
  }

  /** The matcher's result for key `s` against query `q` under weights `w`: the
      verdict is exactly case-insensitive subsequence membership, the query is
      echoed and the key is reported as scanned. */
  function Evaluate(w: Config, q: string, s: string): (r: Result)
    ensures r.query == q && r.sortKey == s
    ensures r.matched <==> Embeds(q, s)
  {
    ScanFollowsCursor(w, q, s, |s|);
    CursorIffEmbeds(q, s);
    Finish(q, s, Scan(w, q, s, |s|))
  }

  /** The scan's cursor is the greedy cursor; the pending letter is set only
      after the first query rune has matched, and has score 0 when absent. */
  lemma {:induction false} ScanFollowsCursor(w: Config, q: string, s: string, n: nat)
    requires n <= |s|
    ensures Scan(w, q, s, n).queryIdx == Cursor(q, s, n)
    ensures Scan(w, q, s, n).bestLetter.None? ==> Scan(w, q, s, n).bestLetterScore == 0
    ensures Scan(w, q, s, n).bestLetter.Some? ==> Scan(w, q, s, n).queryIdx >= 1
  {
    if n > 0 {
      ScanFollowsCursor(w, q, s, n - 1);
    }
  }

  /** Query runes are used only through their lower-case form: two queries that
      agree up to case give every candidate the same scan. */
  lemma {:induction false} ScanIgnoresQueryCase(w: Config, q1: string, q2: string, s: string, n: nat)
    requires |q1| == |q2| && forall i :: 0 <= i < |q1| ==> CaseEq(q1[i], q2[i])
    requires n <= |s|
    ensures Scan(w, q1, s, n) == Scan(w, q2, s, n)
  {
    if n > 0 {
      ScanIgnoresQueryCase(w, q1, q2, s, n - 1);
      StepIgnoresQueryCase(w, q1, q2, Scan(w, q1, s, n - 1), n - 1, s[n - 1]);
    }
  }

  lemma StepIgnoresQueryCase(w: Config, q1: string, q2: string, st: ScanState, strIdx: nat, c: char)
    requires |q1| == |q2| && forall i :: 0 <= i < |q1| ==> CaseEq(q1[i], q2[i])
    ensures Step(w, q1, st, strIdx, c) == Step(w, q2, st, strIdx, c)
  {
    assert NextMatch(q1, st, c) == NextMatch(q2, st, c);
    assert QueryRepeat(q1, st) == QueryRepeat(q2, st);
  }

  /** The query's letter case changes neither the verdict nor the score. */
  lemma QueryCaseIrrelevant(w: Config, q: string, s: string)
    ensures Evaluate(w, UpperString(q), s).matched == Evaluate(w, q, s).matched
    ensures Evaluate(w, UpperString(q), s).score == Evaluate(w, q, s).score
  {
    var u := UpperString(q);
    forall i | 0 <= i < |u|
      ensures CaseEq(u[i], q[i])
    {
      LowerOfUpper(q[i]);
    }
    ScanIgnoresQueryCase(w, u, q, s, |s|);
  }

  /** While no rune has matched the first query rune (or the query is empty),
      every rune takes the unmatched branch. */
  lemma {:induction false} UnmatchedScan(w: Config, q: string, s: string, n: nat)
    requires n <= |s|
    requires q == [] || forall j :: 0 <= j < n ==> !CaseEq(q[0], s[j])
    ensures Scan(w, q, s, n).queryIdx == 0 && Scan(w, q, s, n).bestLetter.None?
    ensures Scan(w, q, s, n).score == n * w.unmatchedLetterPenalty
  {
    if n > 0 {
      UnmatchedScan(w, q, s, n - 1);
    }
  }

  /** A candidate with no rune equal to the first query rune does not match and
      scores one unmatched-letter penalty per rune; so does any candidate
      against the empty query, except that it matches. */
  lemma NoMatchScore(w: Config, q: string, s: string)
    requires q == [] || forall j :: 0 <= j < |s| ==> !CaseEq(q[0], s[j])
    ensures Evaluate(w, q, s).matched <==> q == []
    ensures Evaluate(w, q, s).score == |s| * w.unmatchedLetterPenalty
  {
    UnmatchedScan(w, q, s, |s|);
  }

  /** The empty query matches every candidate with score strLen * unmatched. */
  lemma EmptyQuery(w: Config, s: string)
    ensures Evaluate(w, [], s) == Result(true, [], |s| * w.unmatchedLetterPenalty, s)
  {
    NoMatchScore(w, [], s);
  }

  /** The empty candidate scores 0 and matches only the empty query. */
  lemma EmptyCandidate(w: Config, q: string)
    ensures Evaluate(w, q, []) == Result(q == [], q, 0, [])
  {
  }

  /** Whether the step at rune `i` of `s` adds the leading-letter penalty. */
  ghost predicate PenaltyAt(w: Config, q: string, s: string, i: nat)
    requires i < |s|
  {
    PaysLeadingPenalty(q, Scan(w, q, s, i), s[i])
  }

  /** The leading-letter penalty is added at rune `i` exactly when `i` is the
      first position of a rune equal (up to case) to the first query rune. */
  lemma LeadingPenaltyAtFirstMatch(w: Config, q: string, s: string, i: nat)
    requires i < |s|
    ensures PenaltyAt(w, q, s, i) <==>
      |q| > 0 && CaseEq(q[0], s[i]) && forall j :: 0 <= j < i ==> !CaseEq(q[0], s[j])
  {
    ScanFollowsCursor(w, q, s, i);
    if |q| > 0 {
      CursorAtStart(q, s, i);
    }
  }

  /** Hence the leading-letter penalty is added at most once per call. */
  lemma LeadingPenaltyOnce(w: Config, q: string, s: string, i: nat, j: nat)
    requires i < j < |s|
    ensures !(PenaltyAt(w, q, s, i) && PenaltyAt(w, q, s, j))
  {
    LeadingPenaltyAtFirstMatch(w, q, s, i);
    LeadingPenaltyAtFirstMatch(w, q, s, j);
  }

  /** With a non-positive per-rune penalty, a later first match is never
      penalised less than an earlier one. */
  lemma LeadingPenaltyMonotone(w: Config, i: nat, j: nat)
    requires w.leadingLetterPenalty <= 0 && i <= j
    ensures LeadingPenalty(w, j) <= LeadingPenalty(w, i)
  {
    var d: nat, p := j - i, w.leadingLetterPenalty;
    assert j * p == i * p + d * p;
    assert d * p <= 0;
  }

  /** Under the defaults the penalty is 0, -3, -6, then -9 from the third rune on. */
  lemma DefaultLeadingPenalty(i: nat)
    ensures LeadingPenalty(Default, i) == if i >= 3 then -9 else -3 * i
  {
  }

  /** A match on the very first rune earns the separator bonus and neither the
      adjacency nor the camel-case bonus, and pays the penalty for index 0. */
  lemma FirstRuneMatch(w: Config, q: string, s: string)
    requires |q| > 0 && |s| > 0 && CaseEq(q[0], s[0])
    requires w.separatorBonus >= 0
    ensures Scan(w, q, s, 1) ==
      ScanState(1, LeadingPenalty(w, 0), Some(s[0]), w.separatorBonus, true,
                IsLowerLetter(s[0]), IsSeparator(s[0]))
  {
  }
}

=== FILE: subsequence.dfy ===
/** The verdict of the matcher: does the query occur, rune by rune and ignoring
    case, as a subsequence of the candidate? Two definitions and their agreement:
    an embedding of the query into the candidate (the reference), and the greedy
    query cursor that the scan advances (the one the matcher computes). */
module Subsequence {
  import opened Text

  /** `f` places rune k of `q` at position f[k] of `s`, the positions strictly
      increasing and each rune equal to its place up to case. */
  ghost predicate IsEmbedding(q: string, s: string, f: seq<nat>) {
    && |f| == |q|
    && (forall k :: 0 <= k < |f| ==> f[k] < |s| && CaseEq(q[k], s[f[k]]))
    && (forall j, k :: 0 <= j < k < |f| ==> f[j] < f[k])
  }

  /** `q` is a case-insensitive subsequence of `s`. */
  ghost predicate Embeds(q: string, s: string) {
    exists f :: IsEmbedding(q, s, f)
  }

  /** The query cursor after the first `n` runes of `s`: it moves on by one
      exactly when the rune under it equals the next query rune up to case. */
  function Cursor(q: string, s: string, n: nat): (k: nat)
    requires n <= |s|
    ensures k <= |q| && k <= n
  {
    if n == 0 then 0
    else
      var k := Cursor(q, s, n - 1);
      if k < |q| && CaseEq(q[k], s[n - 1]) then k + 1 else k
  }

  /** The cursor never moves back, and moves by at most one rune per step. */
  lemma {:induction false} CursorMonotone(q: string, s: string, m: nat, n: nat)
    requires m <= n <= |s|
    ensures Cursor(q, s, m) <= Cursor(q, s, n) <= Cursor(q, s, m) + (n - m)
    decreases n - m
  {
    if m < n {
      CursorMonotone(q, s, m, n - 1);
    }
  }

  /** Once the whole query is consumed, the cursor stays put. */
  lemma {:induction false} CursorExhausted(q: string, s: string, m: nat, n: nat)
    requires m <= n <= |s| && Cursor(q, s, m) == |q|
    ensures Cursor(q, s, n) == |q|
    decreases n - m
  {
    if m < n {
      CursorExhausted(q, s, m, n - 1);
    }
  }

  /** The positions at which the cursor advanced during the first `n` runes. */
  ghost function Positions(q: string, s: string, n: nat): (f: seq<nat>)
    requires n <= |s|
    ensures |f| == Cursor(q, s, n)
    ensures forall k :: 0 <= k < |f| ==> f[k] < n && CaseEq(q[k], s[f[k]])
    ensures forall j, k :: 0 <= j < k < |f| ==> f[j] < f[k]
  {
    if n == 0 then []
    else
      var f := Positions(q, s, n - 1);
      var k := Cursor(q, s, n - 1);
      if k < |q| && CaseEq(q[k], s[n - 1]) then f + [n - 1] else f
  }

  /** Any embedding's first `m` positions lie before `n`: then the greedy
      cursor has consumed at least `m` query runes after `n` steps. */
  lemma {:induction false} CursorKeepsUp(q: string, s: string, f: seq<nat>, m: nat, n: nat)
    requires IsEmbedding(q, s, f) && n <= |s| && m <= |q|
    requires m == 0 || f[m - 1] < n
    ensures Cursor(q, s, n) >= m
    decreases n
  {
    if m > 0 {
      if f[m - 1] < n - 1 {
        CursorKeepsUp(q, s, f, m, n - 1);
      } else {
        assert m - 1 == 0 || f[m - 2] < f[m - 1];
        CursorKeepsUp(q, s, f, m - 1, n - 1);
      }
    }
  }

  /** The greedy cursor consumes the whole query exactly when the query is a
      case-insensitive subsequence of the candidate. */
  lemma CursorIffEmbeds(q: string, s: string)
    ensures Cursor(q, s, |s|) == |q| <==> Embeds(q, s)
  {
    if Cursor(q, s, |s|) == |q| {
      assert IsEmbedding(q, s, Positions(q, s, |s|));
    }
    if Embeds(q, s) {
      var f :| IsEmbedding(q, s, f);
      if |q| > 0 {
        CursorKeepsUp(q, s, f, |q|, |s|);
      }
    }
  }

  /** A query that occurs contiguously, up to case, is a subsequence. */
  lemma ContiguousEmbeds(q: string, s: string, i: nat)
    requires i + |q| <= |s| && forall k :: 0 <= k < |q| ==> CaseEq(q[k], s[i + k])
    ensures Embeds(q, s)
  {
    var f: seq<nat> := seq(|q|, k => i + k);
    assert IsEmbedding(q, s, f);
  }

  /** The cursor cannot pass a query rune that equals none of the runes seen. */
  lemma {:induction false} CursorStopsAt(q: string, s: string, k: nat, n: nat)
    requires k < |q| && n <= |s|
    requires forall j :: 0 <= j < n ==> !CaseEq(q[k], s[j])
    ensures Cursor(q, s, n) <= k
  {
    if n > 0 {
      CursorStopsAt(q, s, k, n - 1);
    }
  }

  /** A query rune that equals no rune of the candidate rules out a match. */
  lemma MissingRuneNoEmbedding(q: string, s: string, k: nat)
    requires k < |q| && forall j :: 0 <= j < |s| ==> !CaseEq(q[k], s[j])
    ensures !Embeds(q, s)
  {
    CursorStopsAt(q, s, k, |s|);
    CursorIffEmbeds(q, s);
  }

  /** With a non-empty query, the cursor is still at 0 exactly while no rune
      seen so far equals the first query rune. */
  lemma {:induction false} CursorAtStart(q: string, s: string, n: nat)
    requires |q| > 0 && n <= |s|
    ensures Cursor(q, s, n) == 0 <==> forall j :: 0 <= j < n ==> !CaseEq(q[0], s[j])
  {
    if n > 0 {
      CursorAtStart(q, s, n - 1);
      CursorMonotone(q, s, n - 1, n);
    }
  }
}

=== FILE: text.dfy ===
/** Rune-level helpers of the matcher: case mapping, the separator runes, the
    letter-case tests of the scan, and the order Go's `<` puts on strings. */
module Text {

  /** `strings.ToLower` on a one-rune string; only ASCII letters have a case here. */
  function Lower(c: char): char {
    if 'A' <= c <= 'Z' then (c as int + 32) as char else c
  }

  /** `strings.ToUpper` on a one-rune string; only ASCII letters have a case here. */
  function Upper(c: char): char {
    if 'a' <= c <= 'z' then (c as int - 32) as char else c
  }

  /** Two runes are equal once lower-cased: the only comparison the matcher makes. */
  predicate CaseEq(a: char, b: char) {
    Lower(a) == Lower(b)
  }

  /** A rune with a case distinction that is in its lower-case form. */
  predicate IsLowerLetter(c: char) {
    c == Lower(c) && Lower(c) != Upper(c)
  }

  /** A rune with a case distinction that is in its upper-case form. */
  predicate IsUpperLetter(c: char) {
    c == Upper(c) && Lower(c) != Upper(c)
  }

  /** The runes after which a match earns the separator bonus. */
  predicate IsSeparator(c: char) {
    c == '_' || c == ' ' || c == '.' || c == '-' || c == '/'
  }

  /** The query upper-cased rune by rune. */
  function UpperString(s: string): (u: string)
    ensures |u| == |s|
    ensures forall i :: 0 <= i < |s| ==> u[i] == Upper(s[i])
  {
    if s == [] then [] else [Upper(s[0])] + UpperString(s[1..])
  }

  lemma LowerOfUpper(c: char)
    ensures Lower(Upper(c)) == Lower(c)
  {
  }

  /** Go's `<` on strings: lexicographic, a proper prefix first. Go compares the
      UTF-8 bytes, and UTF-8 keeps the order of code points, so comparing runes
      gives the same answer. */
  predicate LexLess(a: string, b: string) {
    if |a| == 0 then |b| > 0
    else if |b| == 0 then false
    else a[0] < b[0] || (a[0] == b[0] && LexLess(a[1..], b[1..]))
  }

  lemma {:induction false} LexIrreflexive(a: string)
    ensures !LexLess(a, a)
  {
    if |a| > 0 {
      LexIrreflexive(a[1..]);
    }
  }

  lemma {:induction false} LexAsymmetric(a: string, b: string)
    ensures LexLess(a, b) ==> !LexLess(b, a)
  {
    if |a| > 0 && |b| > 0 && a[0] == b[0] {
      LexAsymmetric(a[1..], b[1..]);
    }
  }

  lemma {:induction false} LexTransitive(a: string, b: string, c: string)
    requires LexLess(a, b) && LexLess(b, c)
    ensures LexLess(a, c)
  {
    if |a| > 0 && a[0] == b[0] && b[0] == c[0] {
      LexTransitive(a[1..], b[1..], c[1..]);
    }
  }

  lemma {:induction false} LexTotal(a: string, b: string)
    ensures a != b ==> LexLess(a, b) || LexLess(b, a)
  {
    if |a| > 0 && |b| > 0 && a[0] == b[0] {
      LexTotal(a[1..], b[1..]);
      if a[1..] == b[1..] {
        assert a == [a[0]] + a[1..] && b == [b[0]] + b[1..];
      }
    }
  }
}
